=== FILE: README.md ===
# Student grading and ranking — a Dafny model

This project models the computational core of the school results screen
(`src/components/Student.jsx`). A teacher enters student records: a name, a
student id, a class, and a mark per subject. The screen then does the following:

- computes each record's total, average and letter grade (`calculateResults`);
- ranks the records by total (`calculatePositions`);
- narrows the list with a search box and a class drop-down (`filteredStudents`),
  whose entries it derives from the roster (`uniqueClasses`);
- accepts or ignores typed marks (`handleSubjectChange`) and refuses to save an
  incomplete form;
- shows dashboard figures (`stats`) and a class report with per-subject
  averages, a grade distribution and per-subject grades on the report card.

Everything is modelled as pure functions over immutable datatypes. The one exception is the `reduce` that sums the marks, which is also given as a loop.

| file | module | what it holds |
|---|---|---|
| `lists.dfy` | `Lists` | generic map, filter and sum over lists, duplicate-freeness, removing one element, and the permutation facts the ranking and the statistics use |
| `records.dfy` | `Records` | raw marks, a record's `subjects` object as an insertion-ordered association list, property read and object-spread update, the total |
| `grading.dfy` | `Grading` | the grade bands, `calculateResults`, the report card's per-subject grade |
| `ranking.dfy` | `Ranking` | `calculatePositions`: a stable insertion sort by total, highest first, then 1-based positions |
| `filtering.dfy` | `Filtering` | the search and class filter, and the class drop-down |
| `entry.dfy` | `MarkEntry` | the mark-acceptance rule and the save-time completeness check |
| `stats.dfy` | `ClassStats` | the dashboard `stats` object, per-subject averages and the grade distribution |

## How the data is modelled

A raw mark is either `Blank` (the empty string) or `Text(parsed, number)`, any
other value. `Text` records what the two JavaScript conversions the component
uses make of the value, with `None` standing for NaN:

- `parsed` is `parseFloat`, which reads the longest decimal prefix. "85abc" gives 85, and "0x50" gives 0.
- `number` is `Number`, which reads the whole text. "85abc" gives NaN, "0x50" gives 80, and "  " gives 0.

Totals and averages use `parseFloat(m) || 0`. The report card's per-subject
grade compares the raw value with `>=`, which goes through `Number`. Any pair
of readings is allowed, so every contract also covers pairs that no actual
value produces. A wholly numeric value is `Num(v)`, both readings being `v`.

A record's `subjects` object is a sequence of `(subject, mark)` entries in
insertion order. `Object.values` lists integer-like keys first, in ascending
order, and then the other keys in insertion order. The model does not
reorder them, because the only use of that list is a sum, which does not
depend on the order. The spread update `{ ...obj, [k]: v }` overwrites an
existing key in place and appends a new key.

Numbers are exact reals. Rounding for display (`toFixed`) is not modelled.

Two behaviours of the code are modelled as written:

- **The average is taken over the marks present in the record**, not over the
  five configured subjects. A record holding only Mathematics 82 and
  English 41 gets total 123, average 61.5 and grade C
  (`Grading.AverageOverPresentMarks`). The two averages agree whenever the
  record's keys are exactly the configured subjects, one mark each. This holds
  for a form that passed the completeness check, has no key other than a
  configured subject, and holds no key twice
  (`MarkEntry.SavedRecordAveragesOverSubjects`). A record with only other
  keys, such as five marks of 90 in Art, Music, Drama, PE and Dance, has
  average 90, while the average over the configured subjects would be 0.
- **The dashboard figures use the whole roster when "All Classes" is selected**,
  even while a search narrows the visible list. With a specific class selected
  they use the visible list (`ClassStats.ComputeStats`).

## Model

| member | source | states |
|---|---|---|
| Records.Coerce | src/components/Student.jsx:102 | the coercion of the totals: the empty string and a NaN reading give 0; any other mark gives its `parseFloat` reading |
| Records.Lookup | src/components/Student.jsx:137 | a property read is `undefined` exactly when no entry has the key; otherwise it is the mark of an entry stored under that key |
| Records.KeyIndex | src/components/Student.jsx:137 | a key is found exactly when some entry has it; the index found holds that key and no earlier entry does |
| Records.Assign | src/components/Student.jsx:194 | object spread: an existing key keeps its place and the length is unchanged; a new key is appended; every other entry is untouched |
| Records.AssignLookup | src/components/Student.jsx:194 | after the spread update the key reads as the new mark and every other key reads as before |
| Records.ReduceTotal | src/components/Student.jsx:102-103 | the `reduce` loop computes the left fold of the coerced marks; with marks in [0, 100] the sum lies in [0, 100 n] |
| Grading.GradeOf | src/components/Student.jsx:106-111 | A exactly when the average is at least 80, B exactly in [70, 80), C in [60, 70), D in [50, 60), E in [40, 50), F below 40; every lower bound is inclusive |
| Grading.GradeOfIsBandLookup | src/components/Student.jsx:106-111 | the if/else cascade agrees on every average with a lookup in the table of (minimum, letter) bands |
| Grading.GradeMonotone | src/components/Student.jsx:106-111 | a higher average never gives a worse grade |
| Grading.CalculateResults | src/components/Student.jsx:101-114 | the total is the sum of the coerced marks; the average times the number of marks present is the total; the average is 0 for an empty `subjects` object; the grade is the band of the average |
| Grading.ResultsInRange | src/components/Student.jsx:102-104 | with every coerced mark in [0, 100], the total lies in [0, 100 n] and the average in [0, 100] |
| Grading.AverageOverPresentMarks | src/components/Student.jsx:102-104 | Mathematics 82 and English 41 alone give total 123, average 61.5 and grade C |
| Grading.SubjectGrade | src/components/Student.jsx:623-630 | an absent or blank mark is graded as 0 (F); a mark whose `Number` reading is NaN is F; any other mark gets the band of its `Number` reading |
| Grading.SubjectGradeOfCoercedMark | src/components/Student.jsx:623-630 | when both conversions read the stored mark alike, the report-card grade of a subject is the band of its coerced mark |
| Grading.SubjectGradeDivergesOnTrailingText | src/components/Student.jsx:623-630 | a stored "85abc" adds 85 to the total but is graded F on the report card |
| Grading.SubjectGradeDivergesOnRadixLiteral | src/components/Student.jsx:623-630 | a stored "0x50" adds 0 to the total but is graded A on the report card |
| Ranking.SortByTotal | src/components/Student.jsx:121 | sorting keeps the length and holds the same records, each as often as in the input; ordering and stability are the two lemmas below |
| Ranking.Insert | src/components/Student.jsx:121 | inserting one record adds exactly that record to the multiset and lengthens the list by one |
| Ranking.SortIsOrdered | src/components/Student.jsx:121 | the sorted list is ordered by total, highest first |
| Ranking.SortIsStable | src/components/Student.jsx:121 | for every total, the records with that total keep their input order |
| Ranking.AssignPositions | src/components/Student.jsx:122-125 | numbering keeps the length, and the record at index k keeps its record and results and gets position `first` + k |
| Ranking.CalculatePositions | src/components/Student.jsx:116-126 | the ranking is as long as the input and the record at index k has position k + 1 |
| Ranking.RankedResults | src/components/Student.jsx:117-120 | every ranked record carries the results of its own record |
| Ranking.RankedOrder | src/components/Student.jsx:121 | the ranking lists totals from highest to lowest |
| Ranking.RankedIsPermutation | src/components/Student.jsx:116-126 | the ranking holds exactly the input records, each as often as in the input |
| Lists.MapPermutation | src/components/Student.jsx:121 | mapping two permutations of each other gives permutations of each other, so sorting the annotated records permutes the underlying records alike |
| Ranking.RankingIsStable | src/components/Student.jsx:121 | for every total, the ranked records with that total are the input records with that total, in input order |
| Ranking.PositionsAreOneToN | src/components/Student.jsx:122-125 | the set of positions is exactly 1..N: no gaps, and no shared positions even when totals tie |
| Ranking.EveryStudentIsRanked | src/components/Student.jsx:116-126 | every input record appears somewhere in the ranking |
| Ranking.RankedHeadHasHighestTotal | src/components/Student.jsx:121-125 | the record at position 1 has a total at least that of every input record |
| Filtering.ToLower | src/components/Student.jsx:220-222 | lower-casing keeps the length and maps every character on its own |
| Filtering.Contains | src/components/Student.jsx:220-222 | `includes` holds exactly when the needle occurs as a contiguous block of the text at some index; the empty needle always matches |
| Filtering.MatchesSearch | src/components/Student.jsx:220-222 | a record matches the search exactly when the lower-cased query occurs in the lower-cased name, id or class; the empty query matches every record |
| Filtering.MatchesClass | src/components/Student.jsx:224 | the sentinel matches every record; any other selection matches exactly the records of that class |
| Filtering.Keep | src/components/Student.jsx:219-227 | a kept record is of the selected class unless the sentinel is selected; with an empty query only the class test decides, and under the sentinel only the search decides |
| Filtering.FilterStudents | src/components/Student.jsx:219-227 | a record is shown exactly when it is in the roster, matches the search in name, id or class, and matches the selected class or the sentinel |
| Filtering.FilteredIsSubsequence | src/components/Student.jsx:219-227 | the shown list is the roster's records at strictly increasing indexes, and those indexes are exactly the records passing both tests |
| Filtering.NoFilterShowsAll | src/components/Student.jsx:219-227 | an empty search with "All Classes" selected shows the whole roster, unchanged and in order |
| Filtering.SearchIgnoresQueryCase | src/components/Student.jsx:220-222 | lower-casing the query does not change which records match the search |
| Filtering.Dedup | src/components/Student.jsx:229 | `new Set` keeps exactly the values of the list, each once |
| Filtering.DedupKeepsFirstOccurrenceOrder | src/components/Student.jsx:229 | the values come in the order of their first occurrence in the list, which with the clauses above fixes the result |
| Filtering.DropBlank | src/components/Student.jsx:229 | `filter(Boolean)` keeps exactly the non-empty strings |
| Filtering.DropBlankIsSubsequence | src/components/Student.jsx:229 | the result is the list's values at strictly increasing indexes, and those indexes are exactly the ones holding a non-empty string, so order and repeats are kept |
| Filtering.UniqueClasses | src/components/Student.jsx:229 | the drop-down starts with "All Classes"; the entries after it are exactly the non-empty classes of the roster, each once; no entry is empty |
| Filtering.UniqueClassesInFirstOccurrenceOrder | src/components/Student.jsx:229 | the classes after the sentinel come in the order of their first appearance in the roster |
| Filtering.SentinelClassListedTwice | src/components/Student.jsx:229 | a class literally named "All Classes" puts a second copy of the sentinel in the drop-down |
| MarkEntry.Accepts | src/components/Student.jsx:190-191 | the empty string is accepted; a non-empty value with a NaN `parseFloat` reading is rejected; any other value is accepted exactly when its coerced mark lies in [0, 100] |
| MarkEntry.HandleSubjectChange | src/components/Student.jsx:189-197 | a blank value or a value parsing to a number in [0, 100] becomes that subject's mark; any other value leaves the form unchanged; other keys and the identity fields never change; no duplicate key is introduced |
| MarkEntry.EntryKeepsMarksInRange | src/components/Student.jsx:189-197 | if every mark of the form is in [0, 100] before a keystroke, every mark is in [0, 100] after it |
| MarkEntry.AllMarksEntered | src/components/Student.jsx:136-138 | true exactly when every configured subject has a mark that is neither absent nor blank |
| MarkEntry.CheckSave | src/components/Student.jsx:131-143 | the details error is reported exactly when the name, the id or the class is empty; the form is ready exactly when all three are set and every configured subject has a mark |
| MarkEntry.ReadyFormHasOneMarkPerSubject | src/components/Student.jsx:131-143 | a ready form whose keys are all configured subjects holds exactly one mark per configured subject |
| MarkEntry.SavedRecordAveragesOverSubjects | src/components/Student.jsx:131-143 | for such a form, the saved record's average is its total over the number of configured subjects |
| MarkEntry.CompleteFormAveragesOverFive | src/components/Student.jsx:86 | with the five configured subjects, a complete form's saved average is its total over five |
| Lists.SumPermutation | src/components/Student.jsx:237 | a sum over records does not depend on their order |
| ClassStats.TopStudent | src/components/Student.jsx:242-244 | `null` exactly for an empty list, otherwise the record at position 1 |
| ClassStats.StatsScope | src/components/Student.jsx:234-244 | the figures cover the whole roster under "All Classes", otherwise exactly the visible records |
| ClassStats.ComputeStats | src/components/Student.jsx:233-245 | the figures are over the scope (the roster under "All Classes", else the visible list): the count is the scope's size; an empty scope gives average 0 and no top student; otherwise the average is the mean of the scope's per-record averages and the top student is the first record of the scope's ranking, at position 1 |
| ClassStats.MeanAverage | src/components/Student.jsx:235-241 | 0 for an empty list; otherwise the mean times the number of records is the sum of the records' averages |
| ClassStats.ClassAverageIsMeanOfAverages | src/components/Student.jsx:235-241 | the class average is the mean of the records' own averages, whatever their ranking |
| ClassStats.ClassAverageInRange | src/components/Student.jsx:235-241 | with every mark in [0, 100], the class average lies in [0, 100] |
| ClassStats.StatsAverageInRange | src/components/Student.jsx:235-241 | the dashboard's class average lies in [0, 100] when every mark of the roster does |
| ClassStats.TopStudentHasHighestTotal | src/components/Student.jsx:242-244 | the top student carries its own results, and its total is at least that of every record in the list |
| ClassStats.TopStudentIsFirstBest | src/components/Student.jsx:242-244 | the top student is the earliest input record among those with the highest total |
| ClassStats.StatsTopHasHighestTotal | src/components/Student.jsx:242-244 | the dashboard has a top student whenever some record is in scope, and no record in scope has a higher total |
| ClassStats.SubjectAverage | src/components/Student.jsx:769-771 | 0 for an empty list; otherwise the subject average times the number of records is the sum of that subject's coerced marks |
| ClassStats.SubjectAverageIsMeanOfMarks | src/components/Student.jsx:768-771 | a subject's class average is the mean of that subject's coerced marks over the records, whatever the ranking |
| ClassStats.SubjectAverageInRange | src/components/Student.jsx:768-771 | with every mark in [0, 100], every subject average lies in [0, 100], a missing mark counting as 0 |
| ClassStats.CountGrade | src/components/Student.jsx:787 | a letter's count is the length of the ranked list filtered on that grade, so it never exceeds the number of ranked records |
| ClassStats.Percentage | src/components/Student.jsx:788-790 | 0 for an empty list; otherwise the percentage times the number of records is 100 times the count; a count within the list gives a percentage in [0, 100] |
| ClassStats.Distribution | src/components/Student.jsx:786-790 | one entry per letter, in the order A to F; entry i is for the i-th letter, its count is that letter's `CountGrade`, and its percentage is that count's `Percentage` of the list |
| ClassStats.DistributionCountsAddUp | src/components/Student.jsx:786-787 | the six counts add up to the number of ranked records |
| ClassStats.PercentagesInRange | src/components/Student.jsx:788-790 | every percentage lies in [0, 100], and all are 0 for an empty list |
| ClassStats.PercentagesAddUpTo100 | src/components/Student.jsx:788-790 | before rounding, the six percentages of a non-empty list add up to 100 |

## Left out

- The record-store client (`src/components/Student.jsx:9-71`), `loadStudents` and the async add, update and delete handlers. These do network I/O with toasts and `confirm`/`alert` dialogs. The model stops at the check that decides whether the save request is sent.
- All JSX rendering and CSS by grade. Also left out: `window.print`, `window.scrollTo`, dates, and the spinner state.
- `src/pages/Home.jsx`, `src/pages/ForgotPass.jsx`, `src/App.jsx` and `src/context/Context.jsx` are not part of this model. They hold login and reset forms over the network, routing, and an empty context.
- The record ids (`_id`/`id`) and the form's edit mode: they only choose which request is sent.
- IEEE doubles. Marks are exact reals, so `parseFloat` overflow to Infinity and sums that overflow are not modelled. Neither is a NaN arising in the sort comparator `b.total - a.total` from two infinite totals.
- Grading.CalculateResults: the average is the exact quotient, not the `toFixed(2)` string the code stores. The grade is computed from the unrounded average, as in the code.
- ClassStats.ComputeStats: the class average adds the exact per-record averages. The code adds `parseFloat` of their two-decimal strings and formats the result with `toFixed(2)`; neither rounding step is modelled.
- ClassStats.SubjectAverage: the final `toFixed(2)` is not modelled.
- ClassStats.Distribution: percentages are before `toFixed(0)`. Rounded percentages need not add up to 100, so `ClassStats.PercentagesAddUpTo100` is about the unrounded values.
- Filtering.ToLower: only the ASCII letters A–Z are lower-cased. `toLowerCase` also maps the rest of Unicode.
- MarkEntry.HandleSubjectChange: the input field's own `type="number"` filtering by the browser is not modelled. Any raw value can reach the rule.
- Records.Student: the identity fields are assumed to be strings and `subjects` an object. Loaded records reach the component without normalisation (`src/components/Student.jsx:14`, `:96-97`). In the code, a missing or non-string name, id or class makes `toLowerCase` throw during filtering (`:220-222`), and a missing `subjects` makes `Object.values` throw (`:102`). A `null` class is dropped from the drop-down by `.filter(Boolean)` (`:229`), just as the empty string is. None of these paths is modelled.
- Records.RawMark: the two readings of a value are taken as given, not computed from its text. The grammars of `parseFloat` and `Number` are not modelled: whitespace, exponents, radix prefixes and the `Infinity` literal. A value whose reading is infinite has no counterpart among the reals.
- Ranking.CalculatePositions: the results and the position are kept beside the record, not spread into it. A stored record that already had `total`, `average`, `grade` or `position` fields would have them overwritten in the code.
- Ranking.SortByTotal: an insertion sort stands in for the engine's `Array.prototype.sort`. The model proves what `sort` with this comparator promises: the output is ordered by total, stable (`SortIsOrdered`, `SortIsStable`), and a permutation of the input (the multiset contract).

=== FILE: entry.dfy ===
/**
 * The add/edit form: the rule that accepts or ignores a typed mark
 * (`handleSubjectChange`) and the completeness check run before saving.
 */
module MarkEntry {
  import opened Lists
  import opened Records
  import opened Grading

  /**
   * The acceptance rule: the empty string, or a value whose `parseFloat`
   * reading lies in [0, 100]. A NaN reading fails both bounds.
   */
  function Accepts(value: RawMark): (b: bool)
    ensures value == Blank ==> b
    ensures value != Blank && ParseFloat(value).None? ==> !b
    ensures value != Blank && ParseFloat(value).Some? ==> (b <==> 0.0 <= Coerce(value) <= 100.0)
  {
    value == Blank || (ParseFloat(value).Some? && 0.0 <= ParseFloat(value).value <= 100.0)
  }

  /**
   * A keystroke in a subject's mark field: an accepted value replaces (or adds)
   * that subject's mark and nothing else; any other value leaves the form as it was.
   */
  function HandleSubjectChange(form: Student, subject: string, value: RawMark): (r: Student)
    ensures r.name == form.name && r.studentId == form.studentId && r.className == form.className
    ensures Accepts(value) ==> Lookup(r.subjects, subject) == Some(value)
    ensures !Accepts(value) ==> r == form
    ensures forall t :: t != subject ==> Lookup(r.subjects, t) == Lookup(form.subjects, t)
    ensures DistinctSubjects(form.subjects) ==> DistinctSubjects(r.subjects)
  {
    if Accepts(value) then
      AssignLookupAll(form.subjects, subject, value);
      form.(subjects := Assign(form.subjects, subject, value))
    else form
  }

  lemma AssignLookupAll(ms: Marks, subject: string, mark: RawMark)
    ensures Lookup(Assign(ms, subject, mark), subject) == Some(mark)
    ensures forall t :: t != subject ==> Lookup(Assign(ms, subject, mark), t) == Lookup(ms, t)
  {
    AssignLookup(ms, subject, mark, subject);
    forall t | t != subject
      ensures Lookup(Assign(ms, subject, mark), t) == Lookup(ms, t)
    {
      AssignLookup(ms, subject, mark, t);
    }
  }

  /**
   * Marks entered through the form stay in range: if every mark was in
   * [0, 100] before a keystroke, every mark is in [0, 100] after it.
   */
  lemma EntryKeepsMarksInRange(form: Student, subject: string, value: RawMark)
    requires MarksInRange(form.subjects)
    ensures MarksInRange(HandleSubjectChange(form, subject, value).subjects)
  {
    if Accepts(value) {
      var r := HandleSubjectChange(form, subject, value).subjects;
      forall i | 0 <= i < |r| ensures 0.0 <= Coerce(r[i].mark) <= 100.0 {
        if r[i] != Entry(subject, value) {
          assert r[i] == form.subjects[i];
        }
      }
    }
  }

  /** The subjects the form and the reports list, in display order. */
  const Subjects: seq<string> := ["Mathematics", "English", "Science", "Social Studies", "Kiswahili"]

  /** What the save button does before contacting the record store. */
  datatype SaveCheck =
    | Ready
    | MissingDetails  // a toast: name, student id or class is empty
    | MissingMarks    // an alert: some configured subject has no mark

  /** A subject's field counts as filled when the key is present and not the empty string. */
  predicate Filled(m: Option<RawMark>)
  {
    m.Some? && m.value != Blank
  }

  /** Whether every configured subject's field is filled. */
  function AllMarksEntered(subjects: seq<string>, marks: Marks): (r: bool)
    ensures r <==> forall i :: 0 <= i < |subjects| ==> Filled(Lookup(marks, subjects[i]))
  {
    if subjects == [] then true
    else Filled(Lookup(marks, subjects[0])) && AllMarksEntered(subjects[1..], marks)
  }

  function CheckSave(form: Student, subjects: seq<string>): (r: SaveCheck)
    ensures r == MissingDetails <==> form.name == "" || form.studentId == "" || form.className == ""
    ensures r == Ready <==>
              && form.name != "" && form.studentId != "" && form.className != ""
              && forall s :: s in subjects ==> Filled(Lookup(form.subjects, s))
  {
    if form.name == "" || form.studentId == "" || form.className == "" then MissingDetails
    else if !AllMarksEntered(subjects, form.subjects) then MissingMarks
    else Ready
  }

  lemma {:induction false} DistinctCard(xs: seq<string>)
    requires Distinct(xs)
    ensures |set x | x in xs| == |xs|
  {
    if xs != [] {
      DistinctCard(xs[1..]);
      assert (set x | x in xs) == (set x | x in xs[1..]) + {xs[0]};
      assert xs[0] !in xs[1..];
    }
  }

  /** Two duplicate-free lists with the same elements have the same length. */
  lemma SameElementsSameLength(xs: seq<string>, ys: seq<string>)
    requires Distinct(xs) && Distinct(ys)
    requires forall x :: x in xs <==> x in ys
    ensures |xs| == |ys|
  {
    DistinctCard(xs);
    DistinctCard(ys);
    assert (set x | x in xs) == (set y | y in ys);
  }

  lemma FilledSubjectsAreKeys(marks: Marks, subjects: seq<string>)
    requires forall s :: s in subjects ==> Filled(Lookup(marks, s))
    ensures forall s :: s in subjects ==> s in KeysOf(marks)
  {
    forall s | s in subjects ensures s in KeysOf(marks) {
      assert Filled(Lookup(marks, s));
      var i := KeyIndex(marks, s).value;
      assert KeysOf(marks)[i] == s;
    }
  }

  lemma KeysAreSubjects(marks: Marks, subjects: seq<string>)
    requires forall i :: 0 <= i < |marks| ==> marks[i].subject in subjects
    ensures forall s :: s in KeysOf(marks) ==> s in subjects
  {
    var keys := KeysOf(marks);
    forall s | s in keys ensures s in subjects {
      var i :| 0 <= i < |keys| && keys[i] == s;
      assert marks[i].subject == s;
    }
  }

  /**
   * When the save check passes for a form whose keys are all configured
   * subjects, the form holds exactly one mark per configured subject.
   */
  lemma ReadyFormHasOneMarkPerSubject(form: Student, subjects: seq<string>)
    requires CheckSave(form, subjects) == Ready
    requires DistinctSubjects(form.subjects) && Distinct(subjects)
    requires forall i :: 0 <= i < |form.subjects| ==> form.subjects[i].subject in subjects
    ensures |form.subjects| == |subjects|
  {
    var keys := KeysOf(form.subjects);
    assert forall s :: s in subjects ==> Filled(Lookup(form.subjects, s)) by {
      assert CheckSave(form, subjects) == Ready;
    }
    FilledSubjectsAreKeys(form.subjects, subjects);
    KeysAreSubjects(form.subjects, subjects);
    SameElementsSameLength(keys, subjects);
  }

  /**
   * Hence, for such a form, the average of the saved record is its total over
   * the number of configured subjects.
   */
  lemma SavedRecordAveragesOverSubjects(form: Student, subjects: seq<string>)
    requires CheckSave(form, subjects) == Ready
    requires DistinctSubjects(form.subjects) && Distinct(subjects)
    requires forall i :: 0 <= i < |form.subjects| ==> form.subjects[i].subject in subjects
    requires |subjects| > 0
    ensures CalculateResults(form).average == CalculateResults(form).total / (|subjects| as real)
  {
    var n := |subjects|;
    assert |form.subjects| == n by {
      ReadyFormHasOneMarkPerSubject(form, subjects);
    }
    assert CalculateResults(form).average == CalculateResults(form).total / (n as real);
  }

  lemma SubjectsAreDistinct()
    ensures Distinct(Subjects)
  {
    var m, e, sc, so, k := Subjects[0], Subjects[1], Subjects[2], Subjects[3], Subjects[4];
    assert m[0] == 'M' && e[0] == 'E' && sc[0] == 'S' && so[0] == 'S' && k[0] == 'K';
    assert sc[1] == 'c' && so[1] == 'o';
  }

  /** With the five configured subjects, a complete form's saved average is its total over five. */
  lemma CompleteFormAveragesOverFive(form: Student)
    requires CheckSave(form, Subjects) == Ready && DistinctSubjects(form.subjects)
    requires forall i :: 0 <= i < |form.subjects| ==> form.subjects[i].subject in Subjects
    ensures CalculateResults(form).average == CalculateResults(form).total / 5.0
  {
    var total, average := CalculateResults(form).total, CalculateResults(form).average;
    SubjectsAreDistinct();
    SavedRecordAveragesOverSubjects(form, Subjects);
    assert |Subjects| as real == 5.0;
  }
}

=== FILE: filtering.dfy ===
/**
 * The visible list (`filteredStudents`) and the class drop-down (`uniqueClasses`).
 */
module Filtering {
  import opened Lists
  import opened Records

  /** The drop-down entry that stands for "no class filter". */
  const AllClasses: string := "All Classes"

  /** `toLowerCase` on one character; only the ASCII letters A-Z are mapped. */
  function LowerChar(c: char): char
  {
    if 'A' <= c <= 'Z' then (c as int + 32) as char else c
  }

  function ToLower(s: string): (r: string)
    ensures |r| == |s|
    ensures forall i :: 0 <= i < |s| ==> r[i] == LowerChar(s[i])
  {
    if s == [] then [] else [LowerChar(s[0])] + ToLower(s[1..])
  }

  /** Lower-casing twice changes nothing more. */
  lemma ToLowerIdempotent(s: string)
    ensures ToLower(ToLower(s)) == ToLower(s)
  {
  }

  /** `needle` occurs in `hay` starting at index `i`. */
  predicate OccursAt(hay: string, needle: string, i: int)
  {
    0 <= i && i + |needle| <= |hay| && hay[i..i + |needle|] == needle
  }

  /** `needle` occurs somewhere in `hay` as a contiguous block. */
  ghost predicate Occurs(hay: string, needle: string)
  {
    exists i :: OccursAt(hay, needle, i)
  }

  /** `hay.includes(needle)`: `needle` occurs as a contiguous block of `hay`. */
  function Contains(hay: string, needle: string): (r: bool)
    ensures r <==> Occurs(hay, needle)
    ensures needle == [] ==> r
  {
    if |needle| <= |hay| && hay[..|needle|] == needle then
      assert OccursAt(hay, needle, 0);
      true
    else if hay == [] then
      assert forall i :: !OccursAt(hay, needle, i);
      false
    else
      OccursInTail(hay, needle);
      Contains(hay[1..], needle)
  }

  /** An occurrence in the tail of `hay` is an occurrence in `hay`, one place later. */
  lemma ShiftOccurs(hay: string, needle: string, i: int)
    requires hay != [] && 0 <= i
    ensures OccursAt(hay[1..], needle, i) <==> OccursAt(hay, needle, i + 1)
  {
    if i + |needle| <= |hay| - 1 {
      var a, b := hay[1..][i..i + |needle|], hay[i + 1..i + 1 + |needle|];
      assert |a| == |b|;
      forall k | 0 <= k < |a| ensures a[k] == b[k] {
        assert a[k] == hay[i + 1 + k];
      }
      assert a == b;
    }
  }

  /** When `needle` does not start `hay`, it occurs in `hay` exactly when it occurs in its tail. */
  lemma OccursInTail(hay: string, needle: string)
    requires hay != [] && !OccursAt(hay, needle, 0)
    ensures (exists i :: OccursAt(hay, needle, i)) <==> (exists i :: OccursAt(hay[1..], needle, i))
  {
    if exists i :: OccursAt(hay[1..], needle, i) {
      var i :| OccursAt(hay[1..], needle, i);
      ShiftOccurs(hay, needle, i);
    }
    if exists i :: OccursAt(hay, needle, i) {
      var i :| OccursAt(hay, needle, i);
      assert i != 0;
      ShiftOccurs(hay, needle, i - 1);
    }
  }

  /** The search box: a case-insensitive substring of the name, the student id or the class. */
  function MatchesSearch(s: Student, query: string): (b: bool)
    ensures query == [] ==> b
    ensures b <==> Occurs(ToLower(s.name), ToLower(query)) || Occurs(ToLower(s.studentId), ToLower(query))
                   || Occurs(ToLower(s.className), ToLower(query))
  {
    var q := ToLower(query);
    Contains(ToLower(s.name), q) || Contains(ToLower(s.studentId), q) || Contains(ToLower(s.className), q)
  }

  /** The class drop-down: the sentinel matches every record, any other entry only its own class. */
  function MatchesClass(s: Student, selectedClass: string): (b: bool)
    ensures selectedClass == AllClasses ==> b
    ensures selectedClass != AllClasses ==> (b <==> s.className == selectedClass)
  {
    selectedClass == AllClasses || s.className == selectedClass
  }

  /** The filter callback: a record is shown when it passes both the search and the class test. */
  function Keep(s: Student, query: string, selectedClass: string): (b: bool)
    ensures b ==> selectedClass == AllClasses || s.className == selectedClass
    ensures query == [] ==> (b <==> MatchesClass(s, selectedClass))
    ensures selectedClass == AllClasses ==> (b <==> MatchesSearch(s, query))
  {
    MatchesSearch(s, query) && MatchesClass(s, selectedClass)
  }

  /** The visible list: the roster's records passing both the search and the class test, in roster order. */
  function FilterStudents(students: seq<Student>, query: string, selectedClass: string): (r: seq<Student>)
    ensures forall x :: x in r <==> x in students && Keep(x, query, selectedClass)
  {
    FilterMembers(students, s => Keep(s, query, selectedClass));
    Filter(students, s => Keep(s, query, selectedClass))
  }

  /**
   * The filtered list is a subsequence of the roster: its records are the
   * roster's records at strictly increasing indexes, and those indexes are
   * exactly the ones whose record passes both tests.
   */
  lemma FilteredIsSubsequence(students: seq<Student>, query: string, selectedClass: string)
    ensures var r := FilterStudents(students, query, selectedClass);
            var idx := KeptIndices(students, s => Keep(s, query, selectedClass), 0);
            && |idx| == |r|
            && (forall k :: 0 <= k < |idx| ==> idx[k] < |students| && r[k] == students[idx[k]])
            && Increasing(idx)
            && (forall i :: 0 <= i < |students| ==> (i in idx <==> Keep(students[i], query, selectedClass)))
  {
    FilterIsSubsequence(students, s => Keep(s, query, selectedClass));
  }

  /** An empty search with the sentinel selected shows the whole roster, in order. */
  lemma NoFilterShowsAll(students: seq<Student>)
    ensures FilterStudents(students, "", AllClasses) == students
  {
    FilterAllKept(students, s => Keep(s, "", AllClasses));
  }

  /** The search ignores the case of the query. */
  lemma SearchIgnoresQueryCase(s: Student, query: string)
    ensures MatchesSearch(s, query) == MatchesSearch(s, ToLower(query))
  {
    ToLowerIdempotent(query);
  }

  /**
   * Spreading a `Set` built from `xs` into an array: each value once, at the
   * place of its first occurrence, skipping the values in `seen`.
   */
  function Dedup(xs: seq<string>, seen: set<string>): (r: seq<string>)
    ensures forall x :: x in r <==> x in xs && x !in seen
    ensures Distinct(r)
  {
    if xs == [] then []
    else if xs[0] in seen then Dedup(xs[1..], seen)
    else [xs[0]] + Dedup(xs[1..], seen + {xs[0]})
  }

  /** A value other than the head of `xs` first occurs one place later in `xs` than in its tail. */
  lemma IndexOfTail(xs: seq<string>, x: string)
    requires xs != [] && x in xs[1..] && xs[0] != x
    ensures x in xs && IndexOf(xs, x) == 1 + IndexOf(xs[1..], x)
  {
  }

  /** The values of `r`, all of which occur in `xs`, are listed in the order of their first occurrence in `xs`. */
  ghost predicate InFirstOccurrenceOrder(r: seq<string>, xs: seq<string>)
  {
    && (forall k :: 0 <= k < |r| ==> r[k] in xs)
    && (forall k, l :: 0 <= k < l < |r| ==> IndexOf(xs, r[k]) < IndexOf(xs, r[l]))
  }

  /** An order by first occurrence in the tail of `xs` is one in `xs`, for values other than its head. */
  lemma OrderInTail(rest: seq<string>, xs: seq<string>)
    requires xs != [] && xs[0] !in rest
    requires InFirstOccurrenceOrder(rest, xs[1..])
    ensures InFirstOccurrenceOrder(rest, xs)
  {
    forall k, l | 0 <= k < l < |rest|
      ensures IndexOf(xs, rest[k]) < IndexOf(xs, rest[l])
    {
      assert rest[k] in rest && rest[l] in rest;
      IndexOfTail(xs, rest[k]);
      IndexOfTail(xs, rest[l]);
    }
    forall k | 0 <= k < |rest| ensures rest[k] in xs {
      assert rest[k] in rest;
      IndexOfTail(xs, rest[k]);
    }
  }

  /** Putting the head of `xs` first keeps the order by first occurrence. */
  lemma OrderWithHead(rest: seq<string>, xs: seq<string>)
    requires xs != [] && xs[0] !in rest
    requires InFirstOccurrenceOrder(rest, xs)
    ensures InFirstOccurrenceOrder([xs[0]] + rest, xs)
  {
    var r := [xs[0]] + rest;
    assert forall k :: 1 <= k < |r| ==> r[k] == rest[k - 1];
    forall k, l | 0 <= k < l < |r|
      ensures IndexOf(xs, r[k]) < IndexOf(xs, r[l])
    {
      assert r[l] == rest[l - 1];
      if k > 0 {
        assert r[k] == rest[k - 1];
      } else {
        assert IndexOf(xs, r[0]) == 0 && r[l] != xs[0];
      }
    }
  }

  /**
   * `Dedup` lists its values in the order of their first occurrence in `xs`.
   * With its membership and distinctness clauses, this determines the result.
   */
  lemma {:induction false} DedupKeepsFirstOccurrenceOrder(xs: seq<string>, seen: set<string>)
    ensures InFirstOccurrenceOrder(Dedup(xs, seen), xs)
  {
    if xs != [] {
      if xs[0] in seen {
        var rest := Dedup(xs[1..], seen);
        DedupKeepsFirstOccurrenceOrder(xs[1..], seen);
        OrderInTail(rest, xs);
      } else {
        var rest := Dedup(xs[1..], seen + {xs[0]});
        DedupKeepsFirstOccurrenceOrder(xs[1..], seen + {xs[0]});
        OrderInTail(rest, xs);
        OrderWithHead(rest, xs);
      }
    }
  }

  predicate NonBlank(c: string)
  {
    c != ""
  }

  /** `.filter(Boolean)` on strings: drops the empty ones. */
  function DropBlank(xs: seq<string>): (r: seq<string>)
    ensures forall x :: x in r <==> x in xs && x != ""
    ensures |r| <= |xs|
  {
    FilterMembers(xs, NonBlank);
    Filter(xs, NonBlank)
  }

  /**
   * `DropBlank` keeps order and copies: its values are those of `xs` at strictly
   * increasing indexes, and those indexes are exactly the ones holding a
   * non-empty string.
   */
  lemma DropBlankIsSubsequence(xs: seq<string>)
    ensures var r := DropBlank(xs);
            var idx := KeptIndices(xs, NonBlank, 0);
            && |idx| == |r|
            && (forall k :: 0 <= k < |idx| ==> idx[k] < |xs| && r[k] == xs[idx[k]])
            && Increasing(idx)
            && (forall i :: 0 <= i < |xs| ==> (i in idx <==> xs[i] != ""))
  {
    FilterIsSubsequence(xs, NonBlank);
  }

  function ClassOf(s: Student): string
  {
    s.className
  }

  /**
   * The class drop-down: the sentinel, then the distinct classes of the roster
   * in order of first appearance, with the empty string dropped.
   */
  function UniqueClasses(students: seq<Student>): (r: seq<string>)
    ensures |r| >= 1 && r[0] == AllClasses
    ensures forall c :: c in r[1..] <==> c != "" && exists i :: 0 <= i < |students| && students[i].className == c
    ensures "" !in r
    ensures Distinct(r[1..])
  {
    var classes := Dedup(Map(students, ClassOf), {});
    var r := DropBlank([AllClasses] + classes);
    assert r == [AllClasses] + DropBlank(classes) by {
      assert ([AllClasses] + classes)[1..] == classes;
    }
    FilterKeepsDistinct(classes, NonBlank);
    assert r[1..] == DropBlank(classes);
    forall c | c in Map(students, ClassOf)
      ensures exists i :: 0 <= i < |students| && students[i].className == c
    {
      var i :| 0 <= i < |Map(students, ClassOf)| && Map(students, ClassOf)[i] == c;
    }
    r
  }

  /** Dropping the empty strings keeps the remaining values in their order. */
  lemma DropBlankKeepsOrder(d: seq<string>, xs: seq<string>)
    requires InFirstOccurrenceOrder(d, xs)
    ensures InFirstOccurrenceOrder(DropBlank(d), xs)
  {
    var r := DropBlank(d);
    var idx := KeptIndices(d, NonBlank, 0);
    DropBlankIsSubsequence(d);
    forall k | 0 <= k < |r| ensures r[k] in xs {
      assert r[k] == d[idx[k]];
    }
    forall k, l | 0 <= k < l < |r| ensures IndexOf(xs, r[k]) < IndexOf(xs, r[l]) {
      assert r[k] == d[idx[k]] && r[l] == d[idx[l]] && idx[k] < idx[l];
    }
  }

  /**
   * The classes after the sentinel appear in the order in which they first
   * occur in the roster.
   */
  lemma UniqueClassesInFirstOccurrenceOrder(students: seq<Student>)
    ensures InFirstOccurrenceOrder(UniqueClasses(students)[1..], Map(students, ClassOf))
  {
    var r := UniqueClasses(students);
    var classes := Map(students, ClassOf);
    var deduped := Dedup(classes, {});
    assert r[1..] == DropBlank(deduped) by {
      assert ([AllClasses] + deduped)[1..] == deduped;
    }
    DedupKeepsFirstOccurrenceOrder(classes, {});
    DropBlankKeepsOrder(deduped, classes);
  }

  /**
   * The sentinel is prepended outside the set, so a class that is itself named
   * "All Classes" puts a second copy of the sentinel in the drop-down.
   */
  lemma SentinelClassListedTwice(students: seq<Student>, k: nat)
    requires k < |students| && students[k].className == AllClasses
    ensures var r := UniqueClasses(students);
            r[0] == AllClasses && AllClasses in r[1..]
  {
  }
}

=== FILE: grading.dfy ===
/**
 * Letter grades and the per-record results: total, average and grade.
 */
module Grading {
  import opened Records

  datatype Grade = A | B | C | D | E | F

  /** Position of a grade in the order F < E < D < C < B < A. */
  function LetterRank(g: Grade): nat
  {
    match g
    case F => 0
    case E => 1
    case D => 2
    case C => 3
    case B => 4
    case A => 5
  }

  /** The cascade of inclusive lower thresholds, checked from the top band down. */
  function GradeOf(x: real): (g: Grade)
    ensures g == A <==> 80.0 <= x
    ensures g == B <==> 70.0 <= x < 80.0
    ensures g == C <==> 60.0 <= x < 70.0
    ensures g == D <==> 50.0 <= x < 60.0
    ensures g == E <==> 40.0 <= x < 50.0
    ensures g == F <==> x < 40.0
  {
    if x >= 80.0 then A
    else if x >= 70.0 then B
    else if x >= 60.0 then C
    else if x >= 50.0 then D
    else if x >= 40.0 then E
    else F
  }

  /** The grade bands as a table of (inclusive minimum, letter), highest band first. */
  const Bands: seq<(real, Grade)> := [(80.0, A), (70.0, B), (60.0, C), (50.0, D), (40.0, E)]

  /** Table lookup: the letter of the first band whose minimum `x` reaches, else `fallback`. */
  function BandLookup(table: seq<(real, Grade)>, x: real, fallback: Grade): Grade
  {
    if table == [] then fallback
    else if x >= table[0].0 then table[0].1
    else BandLookup(table[1..], x, fallback)
  }

  /** The cascade and the band table agree on every average. */
  lemma GradeOfIsBandLookup(x: real)
    ensures GradeOf(x) == BandLookup(Bands, x, F)
  {
    var t1 := [(70.0, B), (60.0, C), (50.0, D), (40.0, E)];
    var t2 := [(60.0, C), (50.0, D), (40.0, E)];
    var t3 := [(50.0, D), (40.0, E)];
    var t4 := [(40.0, E)];
    assert Bands[1..] == t1 && t1[1..] == t2 && t2[1..] == t3 && t3[1..] == t4 && t4[1..] == [];
    assert BandLookup(t4, x, F) == if x >= 40.0 then E else F;
    assert BandLookup(t3, x, F) == if x >= 50.0 then D else BandLookup(t4, x, F);
    assert BandLookup(t2, x, F) == if x >= 60.0 then C else BandLookup(t3, x, F);
    assert BandLookup(t1, x, F) == if x >= 70.0 then B else BandLookup(t2, x, F);
    assert BandLookup(Bands, x, F) == if x >= 80.0 then A else BandLookup(t1, x, F);
  }

  /** A higher average never gives a worse grade. */
  lemma GradeMonotone(x: real, y: real)
    requires x <= y
    ensures LetterRank(GradeOf(x)) <= LetterRank(GradeOf(y))
  {
  }

  /** What `calculateResults` adds to a record. */
  datatype Results = Results(total: real, average: real, grade: Grade)

  /**
   * The results of one record. The average is taken over the entries present
   * in the record's own `subjects` object, not over the configured subject
   * list, and is 0 when the object is empty.
   */
  function CalculateResults(s: Student): (r: Results)
    ensures r.total == Total(s.subjects)
    ensures |s.subjects| == 0 ==> r.average == 0.0
    ensures |s.subjects| > 0 ==> r.average * (|s.subjects| as real) == r.total
    ensures r.grade == GradeOf(r.average)
  {
    var n := |s.subjects|;
    var total := Total(s.subjects);
    var average := if n > 0 then total / (n as real) else 0.0;
    Results(total, average, GradeOf(average))
  }

  /** With every mark in [0, 100], the total lies in [0, 100 n] and the average in [0, 100]. */
  lemma ResultsInRange(s: Student)
    requires MarksInRange(s.subjects)
    ensures 0.0 <= CalculateResults(s).total <= 100.0 * (|s.subjects| as real)
    ensures 0.0 <= CalculateResults(s).average <= 100.0
  {
    var n := |s.subjects| as real;
    var r := CalculateResults(s);
    if n > 0.0 {
      assert r.average * n == r.total;
    }
  }

  /**
   * The grade of one subject on a report card: the stored mark, or 0 when it is
   * absent or falsy (`mark || 0`), compared with the thresholds. The comparison
   * converts the mark with `Number`; when that gives NaN, every threshold test
   * fails and the grade stays F. (A falsy stored value other than the empty
   * string, such as NaN or 0, reaches the same F either way.)
   */
  function SubjectGrade(s: Student, subject: string): (g: Grade)
    ensures Lookup(s.subjects, subject).None? ==> g == F
    ensures Lookup(s.subjects, subject) == Some(Blank) ==> g == F
    ensures forall m :: Lookup(s.subjects, subject) == Some(m) && ToNumber(m).None? ==> g == F
    ensures forall m, v :: Lookup(s.subjects, subject) == Some(m) && ToNumber(m) == Some(v) ==> g == GradeOf(v)
  {
    match Lookup(s.subjects, subject)
    case None => GradeOf(0.0)
    case Some(Blank) => GradeOf(0.0)
    case Some(m) =>
      match ToNumber(m)
      case Some(v) => GradeOf(v)
      case None => F
  }

  /** The two conversions lead to the same value: the empty string, or a value both read alike. */
  predicate ReadAlike(m: RawMark)
  {
    m == Blank || ParseFloat(m) == ToNumber(m)
  }

  /**
   * When the stored mark is read alike by both conversions, the report-card
   * grade of a subject is the grade of its coerced mark.
   */
  lemma SubjectGradeOfCoercedMark(s: Student, subject: string)
    requires forall m :: Lookup(s.subjects, subject) == Some(m) ==> ReadAlike(m)
    ensures SubjectGrade(s, subject) == GradeOf(CoerceOpt(Lookup(s.subjects, subject)))
  {
  }

  /**
   * The two conversions disagree on a mark such as "85abc": the record's total
   * counts 85, while the report card shows F for that subject.
   */
  lemma SubjectGradeDivergesOnTrailingText()
    ensures var s := Student("Amy", "S1", "4A", [Entry("Mathematics", Text(Some(85.0), None))]);
            CalculateResults(s).total == 85.0 && SubjectGrade(s, "Mathematics") == F
  {
    var s := Student("Amy", "S1", "4A", [Entry("Mathematics", Text(Some(85.0), None))]);
    assert s.subjects[..0] == [];
  }

  /**
   * They disagree the other way on a radix literal such as "0x50": the total
   * counts the leading 0, while the report card compares 80 and shows A.
   */
  lemma SubjectGradeDivergesOnRadixLiteral()
    ensures var s := Student("Amy", "S1", "4A", [Entry("Mathematics", Text(Some(0.0), Some(80.0)))]);
            CalculateResults(s).total == 0.0 && SubjectGrade(s, "Mathematics") == A
  {
    var s := Student("Amy", "S1", "4A", [Entry("Mathematics", Text(Some(0.0), Some(80.0)))]);
    assert s.subjects[..0] == [];
  }

  /**
   * The average is over the marks present, not over the subject list: a record
   * holding only Mathematics 82 and English 41 averages 61.5 (grade C), even
   * when five subjects are configured.
   */
  lemma AverageOverPresentMarks()
    ensures var s := Student("Amy", "S1", "4A", [Entry("Mathematics", Num(82.0)), Entry("English", Num(41.0))]);
            CalculateResults(s) == Results(123.0, 61.5, C)
  {
    var ms := [Entry("Mathematics", Num(82.0)), Entry("English", Num(41.0))];
    assert ms[..1] == [ms[0]];
    assert ms[..1][..0] == [];
  }
}

=== FILE: lists.dfy ===
/**
 * Generic list operations shared by the other modules: mapping, filtering and
 * summing a list, removing one element, and the facts about permutations that
 * the ranking and the statistics rely on.
 */
module Lists {

  /** No value occurs twice in `xs`. */
  ghost predicate Distinct<T>(xs: seq<T>)
  {
    forall i, j :: 0 <= i < j < |xs| ==> xs[i] != xs[j]
  }

  /** Where `x` first occurs in `b`. */
  function IndexOf<T(==)>(b: seq<T>, x: T): (i: nat)
    requires x in b
    ensures i < |b| && b[i] == x
    ensures forall j :: 0 <= j < i ==> b[j] != x
  {
    if b[0] == x then 0 else 1 + IndexOf(b[1..], x)
  }

  /** `b` without its element at `i`. */
  function RemoveAt<T>(b: seq<T>, i: nat): (r: seq<T>)
    requires i < |b|
    ensures |r| == |b| - 1
    ensures forall k :: 0 <= k < i ==> r[k] == b[k]
    ensures forall k :: i <= k < |r| ==> r[k] == b[k + 1]
  {
    b[..i] + b[i + 1..]
  }

  lemma {:induction false} MultisetRemoveAt<T>(b: seq<T>, i: nat)
    requires i < |b|
    ensures multiset(RemoveAt(b, i)) == multiset(b) - multiset{b[i]}
  {
    assert b == b[..i] + [b[i]] + b[i + 1..];
    assert multiset(b) == multiset(b[..i]) + multiset{b[i]} + multiset(b[i + 1..]);
  }

  lemma {:induction false} MultisetTail<T>(a: seq<T>)
    requires a != []
    ensures multiset(a[1..]) == multiset(a) - multiset{a[0]}
  {
    assert a == [a[0]] + a[1..];
  }

  /** Two permutations of each other stay so once the head of one is removed from both. */
  lemma {:induction false} PermutationTail<T>(a: seq<T>, b: seq<T>, i: nat)
    requires multiset(a) == multiset(b) && a != [] && i < |b| && b[i] == a[0]
    ensures multiset(a[1..]) == multiset(RemoveAt(b, i))
  {
    MultisetRemoveAt(b, i);
    MultisetTail(a);
  }

  /** Conversely, lists that agree once a shared element is removed from each are permutations of each other. */
  lemma {:induction false} PermutationCons<T>(a: seq<T>, b: seq<T>, i: nat)
    requires a != [] && i < |b| && b[i] == a[0]
    requires multiset(a[1..]) == multiset(RemoveAt(b, i))
    ensures multiset(a) == multiset(b)
  {
    MultisetRemoveAt(b, i);
    assert a == [a[0]] + a[1..];
    assert b == b[..i] + [b[i]] + b[i + 1..];
    assert multiset(b) == multiset(b[..i]) + multiset{b[i]} + multiset(b[i + 1..]);
  }

  // ----- mapping -----

  /** `f` applied to every element, in order. */
  function Map<T, U>(xs: seq<T>, f: T -> U): (r: seq<U>)
    ensures |r| == |xs|
    ensures forall k :: 0 <= k < |xs| ==> r[k] == f(xs[k])
  {
    if xs == [] then [] else [f(xs[0])] + Map(xs[1..], f)
  }

  lemma MapCons<T, U>(x: T, xs: seq<T>, f: T -> U)
    ensures Map([x] + xs, f) == [f(x)] + Map(xs, f)
  {
    assert ([x] + xs)[0] == x && ([x] + xs)[1..] == xs;
  }

  lemma MapRemoveAt<T, U>(b: seq<T>, i: nat, f: T -> U)
    requires i < |b|
    ensures Map(RemoveAt(b, i), f) == RemoveAt(Map(b, f), i)
  {
    var l, r := Map(RemoveAt(b, i), f), RemoveAt(Map(b, f), i);
    assert |l| == |r|;
    forall k | 0 <= k < |l| ensures l[k] == r[k] {
      if k < i {
        assert l[k] == f(b[k]);
      } else {
        assert l[k] == f(b[k + 1]);
      }
    }
  }

  /** Mapping two permutations of each other gives two permutations of each other. */
  lemma {:induction false} MapPermutation<T, U>(a: seq<T>, b: seq<T>, f: T -> U)
    requires multiset(a) == multiset(b)
    ensures multiset(Map(a, f)) == multiset(Map(b, f))
  {
    if a == [] {
      assert |b| == |multiset(b)| == 0;
    } else {
      assert a[0] in multiset(b);
      var i := IndexOf(b, a[0]);
      PermutationTail(a, b, i);
      MapPermutation(a[1..], RemoveAt(b, i), f);
      MapRemoveAt(b, i, f);
      assert Map(a, f)[1..] == Map(a[1..], f);
      PermutationCons(Map(a, f), Map(b, f), i);
    }
  }

  // ----- summing -----

  /** The sum of `f` over `xs`, 0 for an empty list. */
  function Sum<T>(xs: seq<T>, f: T -> real): real
  {
    if xs == [] then 0.0 else f(xs[0]) + Sum(xs[1..], f)
  }

  lemma {:induction false} SumAppend<T>(a: seq<T>, b: seq<T>, f: T -> real)
    ensures Sum(a + b, f) == Sum(a, f) + Sum(b, f)
  {
    if a == [] {
      assert a + b == b;
    } else {
      SumAppend(a[1..], b, f);
      assert (a + b)[1..] == a[1..] + b;
    }
  }

  /** Taking one term out of a sum. */
  lemma {:induction false} SumRemove<T>(b: seq<T>, i: nat, f: T -> real)
    requires i < |b|
    ensures Sum(b, f) == f(b[i]) + Sum(RemoveAt(b, i), f)
  {
    var pre, post := b[..i], b[i + 1..];
    var mid := [b[i]] + post;
    assert b == pre + mid;
    assert mid[0] == b[i] && mid[1..] == post;
    SumAppend(pre, mid, f);
    SumAppend(pre, post, f);
    assert RemoveAt(b, i) == pre + post;
  }

  /** A sum does not depend on the order of its terms. */
  lemma {:induction false} SumPermutation<T>(a: seq<T>, b: seq<T>, f: T -> real)
    requires multiset(a) == multiset(b)
    ensures Sum(a, f) == Sum(b, f)
  {
    if a == [] {
      assert |b| == |multiset(b)| == 0;
    } else {
      assert a[0] in multiset(b);
      var i := IndexOf(b, a[0]);
      PermutationTail(a, b, i);
      SumPermutation(a[1..], RemoveAt(b, i), f);
      SumRemove(b, i, f);
    }
  }

  /** Summing `f` over `xs` is summing `g` over the images `h(x)` when `f` factors through `h`. */
  lemma {:induction false} SumMap<T, U>(xs: seq<T>, h: T -> U, f: T -> real, g: U -> real)
    requires forall x :: x in xs ==> f(x) == g(h(x))
    ensures Sum(xs, f) == Sum(Map(xs, h), g)
  {
    if xs != [] {
      SumMap(xs[1..], h, f, g);
      assert Map(xs, h)[1..] == Map(xs[1..], h);
    }
  }

  // ----- filtering -----

  /** The elements of `xs` passing `keep`, in their order in `xs`. */
  function Filter<T>(xs: seq<T>, keep: T -> bool): (r: seq<T>)
    ensures |r| <= |xs|
  {
    if xs == [] then []
    else (if keep(xs[0]) then [xs[0]] else []) + Filter(xs[1..], keep)
  }

  /** `Filter` keeps exactly the elements of `xs` that pass `keep`. */
  lemma {:induction false} FilterMembers<T>(xs: seq<T>, keep: T -> bool)
    ensures forall x :: x in Filter(xs, keep) <==> x in xs && keep(x)
  {
    if xs != [] {
      FilterMembers(xs[1..], keep);
      assert forall x :: x in xs <==> x == xs[0] || x in xs[1..];
    }
  }

  /** Filtering a list whose every element passes changes nothing. */
  lemma {:induction false} FilterAllKept<T>(xs: seq<T>, keep: T -> bool)
    requires forall x :: x in xs ==> keep(x)
    ensures Filter(xs, keep) == xs
  {
    if xs != [] {
      FilterAllKept(xs[1..], keep);
    }
  }

  /** The indexes (offset by `base`) of the elements `Filter` keeps. */
  function KeptIndices<T>(xs: seq<T>, keep: T -> bool, base: nat): seq<nat>
  {
    if xs == [] then []
    else (if keep(xs[0]) then [base] else []) + KeptIndices(xs[1..], keep, base + 1)
  }

  ghost predicate Increasing(idx: seq<nat>)
  {
    forall k, l :: 0 <= k < l < |idx| ==> idx[k] < idx[l]
  }

  lemma {:induction false} KeptIndicesLength<T>(xs: seq<T>, keep: T -> bool, base: nat)
    ensures |KeptIndices(xs, keep, base)| == |Filter(xs, keep)|
  {
    if xs != [] {
      KeptIndicesLength(xs[1..], keep, base + 1);
    }
  }

  lemma {:induction false} KeptIndicesBounds<T>(xs: seq<T>, keep: T -> bool, base: nat)
    ensures forall k :: 0 <= k < |KeptIndices(xs, keep, base)| ==>
              base <= KeptIndices(xs, keep, base)[k] < base + |xs|
  {
    if xs != [] {
      KeptIndicesBounds(xs[1..], keep, base + 1);
    }
  }

  lemma {:induction false} KeptIndicesPick<T>(xs: seq<T>, keep: T -> bool, base: nat)
    ensures |KeptIndices(xs, keep, base)| == |Filter(xs, keep)|
    ensures forall k :: 0 <= k < |KeptIndices(xs, keep, base)| ==>
              base <= KeptIndices(xs, keep, base)[k] < base + |xs|
              && Filter(xs, keep)[k] == xs[KeptIndices(xs, keep, base)[k] - base]
  {
    KeptIndicesLength(xs, keep, base);
    KeptIndicesBounds(xs, keep, base);
    if xs != [] {
      var tail := KeptIndices(xs[1..], keep, base + 1);
      var rest := Filter(xs[1..], keep);
      var idx := KeptIndices(xs, keep, base);
      var r := Filter(xs, keep);
      var d := if keep(xs[0]) then 1 else 0;
      assert idx == (if keep(xs[0]) then [base] else []) + tail;
      assert r == (if keep(xs[0]) then [xs[0]] else []) + rest;
      KeptIndicesPick(xs[1..], keep, base + 1);
      forall k | d <= k < |idx| ensures r[k] == xs[idx[k] - base] {
        assert idx[k] == tail[k - d] && r[k] == rest[k - d];
        assert xs[1..][tail[k - d] - (base + 1)] == xs[idx[k] - base];
      }
    }
  }

  lemma {:induction false} KeptIndicesIncreasing<T>(xs: seq<T>, keep: T -> bool, base: nat)
    ensures Increasing(KeptIndices(xs, keep, base))
    ensures forall k :: 0 <= k < |KeptIndices(xs, keep, base)| ==> base <= KeptIndices(xs, keep, base)[k]
  {
    if xs != [] {
      KeptIndicesIncreasing(xs[1..], keep, base + 1);
      var tail := KeptIndices(xs[1..], keep, base + 1);
      var idx := KeptIndices(xs, keep, base);
      if keep(xs[0]) {
        assert idx == [base] + tail;
        forall k, l | 0 <= k < l < |idx| ensures idx[k] < idx[l] {
          assert idx[l] == tail[l - 1];
          if k > 0 {
            assert idx[k] == tail[k - 1];
          }
        }
      } else {
        assert idx == tail;
      }
    }
  }

  lemma {:induction false} KeptIndicesExact<T>(xs: seq<T>, keep: T -> bool, base: nat)
    ensures forall i :: base <= i < base + |xs| ==> (i in KeptIndices(xs, keep, base) <==> keep(xs[i - base]))
  {
    if xs != [] {
      KeptIndicesExact(xs[1..], keep, base + 1);
      KeptIndicesIncreasing(xs[1..], keep, base + 1);
      var tail := KeptIndices(xs[1..], keep, base + 1);
      assert base !in tail;
      assert KeptIndices(xs, keep, base) == (if keep(xs[0]) then [base] else []) + tail;
      forall i | base < i < base + |xs|
        ensures (i in KeptIndices(xs, keep, base) <==> keep(xs[i - base]))
      {
        assert xs[1..][i - (base + 1)] == xs[i - base];
      }
    }
  }

  /**
   * The filtered list is a subsequence of `xs`: its elements are those of `xs`
   * at strictly increasing indexes, and those indexes are exactly the ones whose
   * element passes `keep`. This fixes the order and the number of copies kept.
   */
  lemma FilterIsSubsequence<T>(xs: seq<T>, keep: T -> bool)
    ensures var r := Filter(xs, keep);
            var idx := KeptIndices(xs, keep, 0);
            && |idx| == |r|
            && (forall k :: 0 <= k < |idx| ==> idx[k] < |xs| && r[k] == xs[idx[k]])
            && Increasing(idx)
            && (forall i :: 0 <= i < |xs| ==> (i in idx <==> keep(xs[i])))
  {
    KeptIndicesPick(xs, keep, 0);
    KeptIndicesIncreasing(xs, keep, 0);
    KeptIndicesExact(xs, keep, 0);
  }

  /** Filtering a duplicate-free list leaves it duplicate-free. */
  lemma FilterKeepsDistinct<T>(xs: seq<T>, keep: T -> bool)
    requires Distinct(xs)
    ensures Distinct(Filter(xs, keep))
  {
    var r := Filter(xs, keep);
    var idx := KeptIndices(xs, keep, 0);
    FilterIsSubsequence(xs, keep);
    forall k, l | 0 <= k < l < |r| ensures r[k] != r[l] {
      assert idx[k] < idx[l];
    }
  }
}

=== FILE: ranking.dfy ===
/**
 * `calculatePositions`: every record is annotated with its results, the list is
 * sorted by total, highest first, with a stable sort, and positions are the
 * 1-based indexes of the sorted list, so equal totals never share a position.
 */
module Ranking {
  import opened Records
  import opened Grading
  import opened Lists

  /** A record together with its results. */
  datatype Graded = Graded(student: Student, results: Results)

  /** A record with its results and its position in the ranking. */
  datatype Ranked = Ranked(student: Student, results: Results, position: nat)

  function RecordTotal(s: Student): real
  {
    CalculateResults(s).total
  }

  /** A record paired with its own results. */
  function Annotate(s: Student): Graded
  {
    Graded(s, CalculateResults(s))
  }

  /** Every record of the list, annotated with its results. */
  function GradeAll(students: seq<Student>): seq<Graded>
  {
    Map(students, Annotate)
  }

  function GradedStudent(g: Graded): Student
  {
    g.student
  }

  function RankedStudent(x: Ranked): Student
  {
    x.student
  }

  /**
   * The records of `gs` whose total is `t`, in their order in `gs`. This and the
   * two variants below are `Lists.Filter` (and `Lists.Map`) specialised to one
   * test, written out so that the stability proofs unfold them directly rather
   * than through a function value.
   */
  function WithTotal(gs: seq<Graded>, t: real): seq<Graded>
  {
    if gs == [] then []
    else (if gs[0].results.total == t then [gs[0]] else []) + WithTotal(gs[1..], t)
  }

  ghost predicate NonIncreasing(gs: seq<Graded>)
  {
    forall i, j :: 0 <= i < j < |gs| ==> gs[i].results.total >= gs[j].results.total
  }

  /**
   * Inserts `x` in front of the first record whose total does not exceed its
   * own: every record passed over has a strictly greater total, so `x` lands
   * before the records it ties with, which is what a stable sort does for a
   * record that came earlier in the input.
   */
  function Insert(x: Graded, ys: seq<Graded>): (r: seq<Graded>)
    ensures |r| == |ys| + 1
    ensures multiset(r) == multiset(ys) + multiset{x}
  {
    if ys == [] then [x]
    else if ys[0].results.total <= x.results.total then [x] + ys
    else
      assert ys == [ys[0]] + ys[1..];
      [ys[0]] + Insert(x, ys[1..])
  }

  lemma {:induction false} InsertKeepsOrder(x: Graded, ys: seq<Graded>)
    requires NonIncreasing(ys)
    ensures NonIncreasing(Insert(x, ys))
  {
    if ys != [] && ys[0].results.total > x.results.total {
      var rest := Insert(x, ys[1..]);
      InsertKeepsOrder(x, ys[1..]);
      var r := [ys[0]] + rest;
      forall j | 0 < j < |r| ensures r[0].results.total >= r[j].results.total {
        assert r[j] == rest[j - 1];
        assert rest[j - 1] in multiset(ys[1..]) + multiset{x};
        if rest[j - 1] != x {
          var k :| 0 <= k < |ys[1..]| && ys[1..][k] == rest[j - 1];
          assert ys[k + 1] == rest[j - 1];
        }
      }
    }
  }

  lemma {:induction false} WithTotalCons(g: Graded, gs: seq<Graded>, t: real)
    ensures WithTotal([g] + gs, t) == (if g.results.total == t then [g] else []) + WithTotal(gs, t)
  {
    assert ([g] + gs)[0] == g && ([g] + gs)[1..] == gs;
  }

  lemma {:induction false} InsertWithTotal(x: Graded, ys: seq<Graded>, t: real)
    ensures WithTotal(Insert(x, ys), t) == (if x.results.total == t then [x] else []) + WithTotal(ys, t)
  {
    if ys == [] {
      WithTotalCons(x, [], t);
    } else if ys[0].results.total <= x.results.total {
      WithTotalCons(x, ys, t);
    } else {
      var rest := Insert(x, ys[1..]);
      assert Insert(x, ys) == [ys[0]] + rest;
      InsertWithTotal(x, ys[1..], t);
      WithTotalCons(ys[0], rest, t);
      var hx := if x.results.total == t then [x] else [];
      var hy := if ys[0].results.total == t then [ys[0]] else [];
      var w := WithTotal(ys[1..], t);
      assert WithTotal(ys, t) == hy + w;
      // `x` and `ys[0]` have different totals, so at most one of them is kept.
      if hx == [] {
        assert hx + w == w && hx + (hy + w) == hy + w;
      } else {
        assert hy == [];
        assert hy + (hx + w) == hx + w && hy + w == w;
      }
    }
  }

  /** Insertion sort by total, highest first; ties keep their input order. */
  function SortByTotal(gs: seq<Graded>): (r: seq<Graded>)
    ensures |r| == |gs|
    ensures multiset(r) == multiset(gs)
  {
    if gs == [] then []
    else
      assert gs == [gs[0]] + gs[1..];
      Insert(gs[0], SortByTotal(gs[1..]))
  }

  /** The sort's output is ordered by total, highest first. */
  lemma {:induction false} SortIsOrdered(gs: seq<Graded>)
    ensures NonIncreasing(SortByTotal(gs))
  {
    if gs != [] {
      SortIsOrdered(gs[1..]);
      InsertKeepsOrder(gs[0], SortByTotal(gs[1..]));
    }
  }

  /** The sort is stable: the records sharing any one total keep their input order. */
  lemma {:induction false} SortIsStable(gs: seq<Graded>, t: real)
    ensures WithTotal(SortByTotal(gs), t) == WithTotal(gs, t)
  {
    if gs != [] {
      SortIsStable(gs[1..], t);
      InsertWithTotal(gs[0], SortByTotal(gs[1..]), t);
    }
  }

  /** The sorted records with their 1-based places attached, counting from `first`. */
  function AssignPositions(gs: seq<Graded>, first: nat): (r: seq<Ranked>)
    ensures |r| == |gs|
    ensures forall k :: 0 <= k < |r| ==> r[k] == Ranked(gs[k].student, gs[k].results, first + k)
  {
    if gs == [] then []
    else [Ranked(gs[0].student, gs[0].results, first)] + AssignPositions(gs[1..], first + 1)
  }

  /** The ranking of a list of records. */
  function CalculatePositions(students: seq<Student>): (r: seq<Ranked>)
    ensures |r| == |students|
    ensures forall k :: 0 <= k < |r| ==> r[k].position == k + 1
  {
    AssignPositions(SortByTotal(GradeAll(students)), 1)
  }

  /** Every ranked record carries the results of its own record. */
  lemma RankedResults(students: seq<Student>)
    ensures forall x :: x in CalculatePositions(students) ==> x.results == CalculateResults(x.student)
  {
    var graded := GradeAll(students);
    GradeAllFacts(students);
    var sorted := SortByTotal(graded);
    forall k | 0 <= k < |sorted|
      ensures sorted[k].results == CalculateResults(sorted[k].student)
    {
      assert sorted[k] in multiset(graded);
    }
  }

  /** The ranking lists totals from highest to lowest. */
  lemma RankedOrder(students: seq<Student>)
    ensures var r := CalculatePositions(students);
            forall i, j :: 0 <= i < j < |r| ==> r[i].results.total >= r[j].results.total
  {
    SortIsOrdered(GradeAll(students));
  }

  /** The ranking holds exactly the input records, each as often as in the input. */
  lemma RankedIsPermutation(students: seq<Student>)
    ensures multiset(Map(CalculatePositions(students), RankedStudent)) == multiset(students)
  {
    var sorted := SortByTotal(GradeAll(students));
    GradeAllFacts(students);
    MapPermutation(SortByTotal(GradeAll(students)), GradeAll(students), GradedStudent);
    StudentsOfAssignPositions(sorted, 1);
  }

  /** Every input record has a place in the ranking. */
  lemma EveryStudentIsRanked(students: seq<Student>)
    ensures forall s :: s in students ==>
              exists k :: 0 <= k < |students| && CalculatePositions(students)[k].student == s
  {
    var r := CalculatePositions(students);
    var ss := Map(r, RankedStudent);
    RankedIsPermutation(students);
    forall s | s in students ensures exists k :: 0 <= k < |students| && r[k].student == s {
      assert s in multiset(ss);
      var k :| 0 <= k < |ss| && ss[k] == s;
    }
  }

  /** The first record of a non-empty ranking has the highest total. */
  lemma RankedHeadHasHighestTotal(students: seq<Student>)
    requires students != []
    ensures forall s :: s in students ==> RecordTotal(s) <= CalculatePositions(students)[0].results.total
  {
    var r := CalculatePositions(students);
    EveryStudentIsRanked(students);
    RankedOrder(students);
    RankedResults(students);
    forall s | s in students ensures RecordTotal(s) <= r[0].results.total {
      var k :| 0 <= k < |students| && r[k].student == s;
      assert r[k] in r;
    }
  }

  lemma GradeAllFacts(students: seq<Student>)
    ensures Map(GradeAll(students), GradedStudent) == students
    ensures forall g :: g in GradeAll(students) ==> g.results == CalculateResults(g.student)
  {
    var gs := GradeAll(students);
    assert forall k :: 0 <= k < |gs| ==> gs[k] == Annotate(students[k]);
  }

  lemma StudentsOfAssignPositions(gs: seq<Graded>, first: nat)
    ensures Map(AssignPositions(gs, first), RankedStudent) == Map(gs, GradedStudent)
  {
    var l, r := Map(AssignPositions(gs, first), RankedStudent), Map(gs, GradedStudent);
    assert forall k :: 0 <= k < |l| ==> l[k] == r[k];
  }

  /** The records of `students` whose total is `t`, in input order. */
  function StudentsWithTotal(students: seq<Student>, t: real): seq<Student>
  {
    if students == [] then []
    else (if RecordTotal(students[0]) == t then [students[0]] else []) + StudentsWithTotal(students[1..], t)
  }

  /** The records of a ranking whose total is `t`, in ranking order. */
  function RankedWithTotal(r: seq<Ranked>, t: real): seq<Student>
  {
    if r == [] then []
    else (if r[0].results.total == t then [r[0].student] else []) + RankedWithTotal(r[1..], t)
  }

  lemma {:induction false} RankedWithTotalOfAssignPositions(gs: seq<Graded>, first: nat, t: real)
    ensures RankedWithTotal(AssignPositions(gs, first), t) == Map(WithTotal(gs, t), GradedStudent)
  {
    if gs != [] {
      RankedWithTotalOfAssignPositions(gs[1..], first + 1, t);
      var r := AssignPositions(gs, first);
      assert r[1..] == AssignPositions(gs[1..], first + 1);
      var w := WithTotal(gs[1..], t);
      if gs[0].results.total == t {
        assert WithTotal(gs, t) == [gs[0]] + w;
        MapCons(gs[0], w, GradedStudent);
      } else {
        assert WithTotal(gs, t) == w;
      }
    }
  }

  lemma {:induction false} WithTotalOfGradeAll(students: seq<Student>, t: real)
    ensures Map(WithTotal(GradeAll(students), t), GradedStudent) == StudentsWithTotal(students, t)
  {
    if students != [] {
      WithTotalOfGradeAll(students[1..], t);
      var gs := GradeAll(students);
      assert gs[1..] == GradeAll(students[1..]);
      var w := WithTotal(gs[1..], t);
      if gs[0].results.total == t {
        assert WithTotal(gs, t) == [gs[0]] + w;
        MapCons(gs[0], w, GradedStudent);
      } else {
        assert WithTotal(gs, t) == w;
      }
    }
  }

  /**
   * Ranking is stable: for every total, the records with that total appear in
   * the ranking in the same order as in the input.
   */
  lemma RankingIsStable(students: seq<Student>, t: real)
    ensures RankedWithTotal(CalculatePositions(students), t) == StudentsWithTotal(students, t)
  {
    var graded := GradeAll(students);
    SortIsStable(graded, t);
    RankedWithTotalOfAssignPositions(SortByTotal(graded), 1, t);
    WithTotalOfGradeAll(students, t);
  }

  /** The positions 1..n. */
  function OneTo(n: nat): (r: set<int>)
    ensures forall k :: k in r <==> 1 <= k <= n
  {
    if n == 0 then {} else OneTo(n - 1) + {n}
  }

  /** Positions are exactly 1..N: no gaps and, as each is its index plus one, no repeats, even for ties. */
  lemma PositionsAreOneToN(students: seq<Student>)
    ensures (set x | x in CalculatePositions(students) :: x.position) == OneTo(|students|)
  {
    var r := CalculatePositions(students);
    forall k | k in OneTo(|students|) ensures k in (set x | x in r :: x.position) {
      assert r[k - 1] in r;
    }
  }
}

=== FILE: records.dfy ===
/**
 * Student records as the report screen holds them: identity strings plus the
 * `subjects` object, a subject-name -> raw-mark mapping kept in insertion order.
 */
module Records {
  import opened Lists

  datatype Option<+T> = None | Some(value: T)

  /**
   * A raw mark as it sits in a record's `subjects` object. Marks typed into the
   * form are strings; marks loaded from the record store may be anything. The
   * component reads a mark through two JavaScript conversions, which can
   * disagree, so a non-empty value is described by what each makes of it
   * (`None` standing for NaN):
   *   - `parsed`: `parseFloat`, used for totals and averages, reads the longest
   *     decimal prefix ("85abc" gives 85, "0x50" gives 0);
   *   - `number`: `Number`, the conversion behind `mark >= 80`, reads the whole
   *     text ("85abc" gives NaN, "0x50" gives 80, "  " gives 0).
   * Every pair of readings is allowed, including pairs no actual value has.
   */
  datatype RawMark =
    | Blank                                            // the empty string
    | Text(parsed: Option<real>, number: Option<real>) // any other value

  /** A wholly numeric value, which both conversions read alike. */
  function Num(v: real): (m: RawMark)
    ensures ParseFloat(m) == ToNumber(m) == Some(v)
  {
    Text(Some(v), Some(v))
  }

  /** `parseFloat(m)`, with NaN as `None`; the empty string gives NaN. */
  function ParseFloat(m: RawMark): Option<real>
  {
    if m.Text? then m.parsed else None
  }

  /** `Number(m)`, with NaN as `None`; the empty string gives 0. */
  function ToNumber(m: RawMark): Option<real>
  {
    if m.Text? then m.number else Some(0.0)
  }

  /** `parseFloat(m) || 0`: NaN (and 0) become 0. */
  function Coerce(m: RawMark): (c: real)
    ensures m == Blank ==> c == 0.0
    ensures m.Text? && m.parsed.None? ==> c == 0.0
    ensures m.Text? && m.parsed.Some? ==> c == m.parsed.value
  {
    match ParseFloat(m)
    case Some(v) => v
    case None => 0.0
  }

  /** The coercion of a looked-up mark; an absent key reads as `undefined`, which also coerces to 0. */
  function CoerceOpt(m: Option<RawMark>): real
  {
    match m
    case Some(raw) => Coerce(raw)
    case None => 0.0
  }

  datatype Entry = Entry(subject: string, mark: RawMark)

  /** The `subjects` object of a record, in insertion order. */
  type Marks = seq<Entry>

  datatype Student = Student(name: string, studentId: string, className: string, subjects: Marks)

  function KeyOf(e: Entry): string
  {
    e.subject
  }

  /** The keys of a `subjects` object, in order. */
  function KeysOf(ms: Marks): seq<string>
  {
    Map(ms, KeyOf)
  }

  /** A JavaScript object never holds the same key twice. */
  ghost predicate DistinctSubjects(ms: Marks)
  {
    Distinct(KeysOf(ms))
  }

  /** Where `subject` is stored in `ms`: the first entry under that key, if any. */
  function KeyIndex(ms: Marks, subject: string): (r: Option<nat>)
    ensures r.None? <==> forall i :: 0 <= i < |ms| ==> ms[i].subject != subject
    ensures r.Some? ==> r.value < |ms| && ms[r.value].subject == subject
    ensures r.Some? ==> forall j :: 0 <= j < r.value ==> ms[j].subject != subject
  {
    if ms == [] then None
    else if ms[0].subject == subject then Some(0)
    else
      match KeyIndex(ms[1..], subject)
      case None => None
      case Some(i) => Some(i + 1)
  }

  /** Property read `obj[subject]`: the mark stored under `subject`, or `undefined`. */
  function Lookup(ms: Marks, subject: string): (r: Option<RawMark>)
    ensures r.None? <==> forall i :: 0 <= i < |ms| ==> ms[i].subject != subject
    ensures r.Some? ==> Entry(subject, r.value) in ms
  {
    match KeyIndex(ms, subject)
    case Some(i) => Some(ms[i].mark)
    case None => None
  }

  /** Two entry lists with the same keys in the same places locate every key alike. */
  lemma {:induction false} KeyIndexOfSameKeys(a: Marks, b: Marks, subject: string)
    requires |a| == |b|
    requires forall i :: 0 <= i < |a| ==> a[i].subject == b[i].subject
    ensures KeyIndex(a, subject) == KeyIndex(b, subject)
  {
    var ka, kb := KeyIndex(a, subject), KeyIndex(b, subject);
    if ka.Some? && kb.Some? {
      assert !(ka.value < kb.value) && !(kb.value < ka.value);
    }
  }

  /**
   * Object spread `{ ...ms, [subject]: mark }`: an existing key keeps its place
   * and takes the new mark; a new key is appended at the end.
   */
  function Assign(ms: Marks, subject: string, mark: RawMark): (r: Marks)
    ensures |r| == if Lookup(ms, subject).Some? then |ms| else |ms| + 1
    ensures forall i :: 0 <= i < |ms| ==> r[i].subject == ms[i].subject
    ensures Lookup(ms, subject).None? ==> r == ms + [Entry(subject, mark)]
    ensures forall i :: 0 <= i < |r| ==> r[i] == Entry(subject, mark) || (i < |ms| && r[i] == ms[i])
  {
    match KeyIndex(ms, subject)
    case Some(i) => ms[i := Entry(subject, mark)]
    case None => ms + [Entry(subject, mark)]
  }

  /** After the assignment the key reads as the new mark and every other key reads as before. */
  lemma AssignLookup(ms: Marks, subject: string, mark: RawMark, other: string)
    ensures Lookup(Assign(ms, subject, mark), subject) == Some(mark)
    ensures other != subject ==> Lookup(Assign(ms, subject, mark), other) == Lookup(ms, other)
  {
    var r := Assign(ms, subject, mark);
    match KeyIndex(ms, subject)
    case Some(i) =>
      KeyIndexOfSameKeys(r, ms, subject);
      KeyIndexOfSameKeys(r, ms, other);
    case None =>
      assert r == ms + [Entry(subject, mark)];
      assert r[|ms|].subject == subject;
      var k := KeyIndex(r, subject);
      assert k.Some? && k.value == |ms| by {
        assert forall j :: 0 <= j < |ms| ==> r[j] == ms[j];
      }
      var ko := KeyIndex(ms, other);
      var kr := KeyIndex(r, other);
      if other != subject {
        if ko.Some? {
          assert kr.Some? && !(kr.value < ko.value) && !(ko.value < kr.value);
        } else {
          assert kr.None?;
        }
      }
  }

  /**
   * The sum of a sequence of coerced marks, folded left to right as `reduce`
   * does. `Lists.Sum` folds from the other end; this left fold is kept as the
   * reference that the loop in `ReduceTotal` is proved against.
   */
  function Total(ms: Marks): (r: real)
    ensures (forall i :: 0 <= i < |ms| ==> 0.0 <= Coerce(ms[i].mark) <= 100.0) ==>
              0.0 <= r <= 100.0 * (|ms| as real)
  {
    if ms == [] then 0.0
    else
      var prefix := ms[..|ms| - 1];
      assert forall i :: 0 <= i < |prefix| ==> prefix[i] == ms[i];
      Total(prefix) + Coerce(ms[|ms| - 1].mark)
  }

  /** Every coerced mark of the record lies in [0, 100], as the entry form enforces. */
  ghost predicate MarksInRange(ms: Marks)
  {
    forall i :: 0 <= i < |ms| ==> 0.0 <= Coerce(ms[i].mark) <= 100.0
  }

  /**
   * The total as the code computes it: a running sum over the entries, starting
   * at 0 and adding each coerced mark in turn. It agrees with `Total`.
   */
  method ReduceTotal(ms: Marks) returns (sum: real)
    ensures sum == Total(ms)
    ensures MarksInRange(ms) ==> 0.0 <= sum <= 100.0 * (|ms| as real)
  {
    sum := 0.0;
    var i := 0;
    while i < |ms|
      invariant 0 <= i <= |ms|
      invariant sum == Total(ms[..i])
    {
      assert ms[..i + 1][..i] == ms[..i];
      sum := sum + Coerce(ms[i].mark);
      i := i + 1;
    }
    assert ms[..i] == ms;
  }
}

=== FILE: stats.dfy ===
/**
 * Class statistics: the dashboard's `stats` object, the class report's
 * per-subject averages and its grade distribution.
 */
module ClassStats {
  import opened Records
  import opened Grading
  import opened Ranking
  import opened Filtering
  import opened Lists

  /** Summing over the ranking is summing over the ranked records in their input order. */
  lemma SumOverRanking(students: seq<Student>, f: Ranked -> real, g: Student -> real)
    requires forall x :: x in CalculatePositions(students) ==> f(x) == g(x.student)
    ensures Sum(CalculatePositions(students), f) == Sum(students, g)
  {
    var r := CalculatePositions(students);
    SumMap(r, RankedStudent, f, g);
    RankedIsPermutation(students);
    SumPermutation(Map(r, RankedStudent), students, g);
  }

  function AverageOf(s: Student): real
  {
    CalculateResults(s).average
  }

  function RankedAverage(x: Ranked): real
  {
    x.results.average
  }

  /**
   * The mean of the ranked records' averages, 0 for an empty list.
   * The source formats the per-record averages with `toFixed(2)` and parses
   * them back before adding them up; that rounding is not modelled.
   */
  function MeanAverage(r: seq<Ranked>): (m: real)
    ensures |r| == 0 ==> m == 0.0
    ensures |r| > 0 ==> m * (|r| as real) == Sum(r, RankedAverage)
  {
    var sum := Sum(r, RankedAverage);
    if |r| > 0 then QuotientTimesDivisor(sum, |r| as real); sum / (|r| as real) else 0.0
  }

  /** The dashboard's figures. */
  datatype Stats = Stats(totalStudents: nat, averageScore: real, topStudent: Option<Ranked>)

  /** The first record of the ranking, or `null` for an empty list. */
  function TopStudent(students: seq<Student>): (top: Option<Ranked>)
    ensures top.None? <==> students == []
    ensures top.Some? ==> top.value.position == 1
  {
    var r := CalculatePositions(students);
    if |r| > 0 then Some(r[0]) else None
  }

  /**
   * The dashboard figures. With the sentinel selected they are computed over
   * the whole roster, even when a search narrows the visible list; with a
   * class selected, over the visible (filtered) list.
   */
  function ComputeStats(students: seq<Student>, query: string, selectedClass: string): (st: Stats)
    ensures selectedClass == AllClasses ==> st.totalStudents == |students|
    ensures selectedClass != AllClasses ==> st.totalStudents == |FilterStudents(students, query, selectedClass)|
    ensures st.totalStudents == 0 ==> st.averageScore == 0.0 && st.topStudent.None?
    ensures st.totalStudents > 0 ==> st.topStudent.Some? && st.topStudent.value.position == 1
    ensures var scope := StatsScope(students, query, selectedClass);
            st.totalStudents == |scope| &&
            (|scope| > 0 ==> st.topStudent == Some(CalculatePositions(scope)[0])
                             && st.averageScore == Sum(scope, AverageOf) / (|scope| as real))
  {
    var scope := StatsScope(students, query, selectedClass);
    if |scope| > 0 then
      ClassAverageIsMeanOfAverages(scope);
      Stats(|scope|, MeanAverage(CalculatePositions(scope)), TopStudent(scope))
    else
      Stats(0, 0.0, None)
  }

  lemma QuotientTimesDivisor(sum: real, n: real)
    requires n > 0.0
    ensures (sum / n) * n == sum
  {
  }

  /** A mean of values in [0, 100] lies in [0, 100]. */
  lemma MeanInRange(mean: real, sum: real, n: real)
    requires n > 0.0 && 0.0 <= sum <= 100.0 * n && mean == sum / n
    ensures 0.0 <= mean <= 100.0
  {
  }

  /** The class average is the mean of the records' own averages, whatever their ranking. */
  lemma ClassAverageIsMeanOfAverages(students: seq<Student>)
    requires |students| > 0
    ensures MeanAverage(CalculatePositions(students)) == Sum(students, AverageOf) / (|students| as real)
  {
    RankedResults(students);
    SumOverRanking(students, RankedAverage, AverageOf);
  }

  lemma {:induction false} SumOfBoundedAverages(ss: seq<Student>)
    requires forall s :: s in ss ==> MarksInRange(s.subjects)
    ensures 0.0 <= Sum(ss, AverageOf) <= 100.0 * (|ss| as real)
  {
    if ss != [] {
      SumOfBoundedAverages(ss[1..]);
      ResultsInRange(ss[0]);
    }
  }

  /** With every mark in [0, 100], the class average lies in [0, 100]. */
  lemma ClassAverageInRange(students: seq<Student>)
    requires forall s :: s in students ==> MarksInRange(s.subjects)
    ensures 0.0 <= MeanAverage(CalculatePositions(students)) <= 100.0
  {
    if |students| > 0 {
      var n := |students| as real;
      var sum := Sum(students, AverageOf);
      var mean := MeanAverage(CalculatePositions(students));
      SumOfBoundedAverages(students);
      ClassAverageIsMeanOfAverages(students);
      MeanInRange(mean, sum, n);
    }
  }

  /** The total of the top record is the highest total in the list. */
  lemma TopStudentHasHighestTotal(students: seq<Student>)
    requires students != []
    ensures TopStudent(students).value.results == CalculateResults(TopStudent(students).value.student)
    ensures forall s :: s in students ==> RecordTotal(s) <= TopStudent(students).value.results.total
  {
    var r := CalculatePositions(students);
    assert TopStudent(students) == Some(r[0]);
    RankedResults(students);
    assert r[0] in r;
    RankedHeadHasHighestTotal(students);
  }

  lemma {:induction false} FirstWithTotal(students: seq<Student>, t: real)
    requires StudentsWithTotal(students, t) != []
    ensures exists i :: 0 <= i < |students| && students[i] == StudentsWithTotal(students, t)[0]
              && RecordTotal(students[i]) == t
              && forall j :: 0 <= j < i ==> RecordTotal(students[j]) != t
  {
    if RecordTotal(students[0]) != t {
      FirstWithTotal(students[1..], t);
      var i :| 0 <= i < |students[1..]| && students[1..][i] == StudentsWithTotal(students[1..], t)[0]
                 && RecordTotal(students[1..][i]) == t
                 && forall j :: 0 <= j < i ==> RecordTotal(students[1..][j]) != t;
      assert students[i + 1] == StudentsWithTotal(students, t)[0];
      forall j | 0 <= j < i + 1 ensures RecordTotal(students[j]) != t {
        if j > 0 {
          assert students[j] == students[1..][j - 1];
        }
      }
    }
  }

  /**
   * The top student is the earliest record in the input among those with
   * the highest total: every record before it has a strictly lower total.
   */
  lemma TopStudentIsFirstBest(students: seq<Student>)
    requires students != []
    ensures var top := TopStudent(students).value;
            exists i :: 0 <= i < |students| && students[i] == top.student
              && forall j :: 0 <= j < i ==> RecordTotal(students[j]) < top.results.total
  {
    var r := CalculatePositions(students);
    var top := r[0];
    var t := top.results.total;
    TopStudentHasHighestTotal(students);
    RankingIsStable(students, t);
    assert RankedWithTotal(r, t) == [top.student] + RankedWithTotal(r[1..], t);
    FirstWithTotal(students, t);
    var i :| 0 <= i < |students| && students[i] == StudentsWithTotal(students, t)[0]
             && RecordTotal(students[i]) == t
             && forall j :: 0 <= j < i ==> RecordTotal(students[j]) != t;
    forall j | 0 <= j < i ensures RecordTotal(students[j]) < t {
      assert students[j] in students;
    }
  }

  /** The records the dashboard figures are computed over. */
  function StatsScope(students: seq<Student>, query: string, selectedClass: string): (scope: seq<Student>)
    ensures selectedClass == AllClasses ==> scope == students
    ensures forall s :: s in scope <==>
              s in students && (selectedClass == AllClasses || Keep(s, query, selectedClass))
  {
    if selectedClass == AllClasses then students else FilterStudents(students, query, selectedClass)
  }

  /** The dashboard's class average lies in [0, 100] when every mark of the roster does. */
  lemma StatsAverageInRange(students: seq<Student>, query: string, selectedClass: string)
    requires forall s :: s in students ==> MarksInRange(s.subjects)
    ensures 0.0 <= ComputeStats(students, query, selectedClass).averageScore <= 100.0
  {
    var scope := StatsScope(students, query, selectedClass);
    assert ComputeStats(students, query, selectedClass).averageScore == MeanAverage(CalculatePositions(scope));
    ClassAverageInRange(scope);
  }

  /**
   * The dashboard's top student has the highest total among the records in
   * scope: the whole roster under the sentinel, else the visible records.
   */
  lemma StatsTopHasHighestTotal(students: seq<Student>, query: string, selectedClass: string, s: Student)
    requires s in students && (selectedClass == AllClasses || Keep(s, query, selectedClass))
    ensures ComputeStats(students, query, selectedClass).topStudent.Some?
    ensures RecordTotal(s) <= ComputeStats(students, query, selectedClass).topStudent.value.results.total
  {
    var scope := StatsScope(students, query, selectedClass);
    assert ComputeStats(students, query, selectedClass).topStudent == TopStudent(scope);
    assert s in scope;
    TopStudentHasHighestTotal(scope);
  }

  /** A record's coerced mark in one subject; an absent or unreadable mark counts as 0. */
  function SubjectMark(s: Student, subject: string): real
  {
    CoerceOpt(Lookup(s.subjects, subject))
  }

  function SubjectMarkOf(subject: string): Student -> real
  {
    (s: Student) => SubjectMark(s, subject)
  }

  function RankedSubjectMark(subject: string): Ranked -> real
  {
    (x: Ranked) => SubjectMark(x.student, subject)
  }

  /** The class report's average for one subject over the ranked list, 0 for an empty list. */
  function SubjectAverage(r: seq<Ranked>, subject: string): (m: real)
    ensures |r| == 0 ==> m == 0.0
    ensures |r| > 0 ==> m * (|r| as real) == Sum(r, RankedSubjectMark(subject))
  {
    var sum := Sum(r, RankedSubjectMark(subject));
    if |r| > 0 then QuotientTimesDivisor(sum, |r| as real); sum / (|r| as real) else 0.0
  }

  /** A subject's class average is the mean of that subject's coerced marks, whatever the ranking. */
  lemma SubjectAverageIsMeanOfMarks(students: seq<Student>, subject: string)
    requires |students| > 0
    ensures SubjectAverage(CalculatePositions(students), subject)
            == Sum(students, SubjectMarkOf(subject)) / (|students| as real)
  {
    SumOverRanking(students, RankedSubjectMark(subject), SubjectMarkOf(subject));
  }

  lemma {:induction false} SumOfBoundedMarks(ss: seq<Student>, subject: string)
    requires forall s :: s in ss ==> MarksInRange(s.subjects)
    ensures 0.0 <= Sum(ss, SubjectMarkOf(subject)) <= 100.0 * (|ss| as real)
  {
    if ss != [] {
      SumOfBoundedMarks(ss[1..], subject);
      var m := Lookup(ss[0].subjects, subject);
      if m.Some? {
        var i :| 0 <= i < |ss[0].subjects| && ss[0].subjects[i] == Entry(subject, m.value);
      }
    }
  }

  /** With every mark in [0, 100], every subject average lies in [0, 100]; a missing mark counts as 0. */
  lemma SubjectAverageInRange(students: seq<Student>, subject: string)
    requires forall s :: s in students ==> MarksInRange(s.subjects)
    ensures 0.0 <= SubjectAverage(CalculatePositions(students), subject) <= 100.0
  {
    if |students| > 0 {
      var sum := Sum(students, SubjectMarkOf(subject));
      var n := |students| as real;
      var mean := SubjectAverage(CalculatePositions(students), subject);
      SumOfBoundedMarks(students, subject);
      SubjectAverageIsMeanOfMarks(students, subject);
      MeanInRange(mean, sum, n);
    }
  }

  /** The six letters in the order the report lists them. */
  const Letters: seq<Grade> := [A, B, C, D, E, F]

  function GradeIs(g: Grade): Ranked -> bool
  {
    (x: Ranked) => x.results.grade == g
  }

  /** How many ranked records have grade `g`: the length of the list filtered on that grade. */
  function CountGrade(r: seq<Ranked>, g: Grade): (n: nat)
    ensures n <= |r|
    ensures n == |Filter(r, GradeIs(g))|
  {
    if r == [] then 0 else (if r[0].results.grade == g then 1 else 0) + CountGrade(r[1..], g)
  }

  datatype GradeCount = GradeCount(grade: Grade, count: nat, percentage: real)

  /** The share of `count` in `n` records, in percent and before rounding; 0 for an empty list. */
  function Percentage(count: nat, n: nat): (p: real)
    ensures n == 0 ==> p == 0.0
    ensures n > 0 ==> p * (n as real) == (count as real) * 100.0
    ensures count <= n ==> 0.0 <= p <= 100.0
  {
    if n > 0 then (count as real) / (n as real) * 100.0 else 0.0
  }

  /** The class report's grade distribution, one entry per letter A to F. */
  function Distribution(r: seq<Ranked>): (d: seq<GradeCount>)
    ensures |d| == |Letters|
    ensures forall i :: 0 <= i < |d| ==>
              d[i].grade == Letters[i] && d[i].count == CountGrade(r, Letters[i])
              && d[i].percentage == Percentage(d[i].count, |r|)
  {
    seq(|Letters|, i requires 0 <= i < |Letters| =>
      GradeCount(Letters[i], CountGrade(r, Letters[i]), Percentage(CountGrade(r, Letters[i]), |r|)))
  }

  /**
   * Sums over one field of the distribution, written out (in `nat` for the
   * counts) so that `SumOverLetters` unfolds them without a function value.
   */
  function SumCounts(d: seq<GradeCount>): nat
  {
    if d == [] then 0 else d[0].count + SumCounts(d[1..])
  }

  function SumPercentages(d: seq<GradeCount>): real
  {
    if d == [] then 0.0 else d[0].percentage + SumPercentages(d[1..])
  }

  lemma {:induction false} CountsCoverAll(r: seq<Ranked>)
    ensures CountGrade(r, A) + CountGrade(r, B) + CountGrade(r, C)
            + CountGrade(r, D) + CountGrade(r, E) + CountGrade(r, F) == |r|
  {
    if r != [] {
      CountsCoverAll(r[1..]);
    }
  }

  lemma SumOverLetters(d: seq<GradeCount>)
    requires |d| == 6
    ensures SumCounts(d) == d[0].count + d[1].count + d[2].count + d[3].count + d[4].count + d[5].count
    ensures SumPercentages(d) == d[0].percentage + d[1].percentage + d[2].percentage
                                 + d[3].percentage + d[4].percentage + d[5].percentage
  {
    var d1, d2, d3, d4, d5 := d[1..], d[2..], d[3..], d[4..], d[5..];
    assert d1[1..] == d2 && d2[1..] == d3 && d3[1..] == d4 && d4[1..] == d5 && d5[1..] == [];
    assert d1[0] == d[1] && d2[0] == d[2] && d3[0] == d[3] && d4[0] == d[4] && d5[0] == d[5];
    assert SumCounts(d5) == d[5].count;
    assert SumCounts(d4) == d[4].count + SumCounts(d5);
    assert SumCounts(d3) == d[3].count + SumCounts(d4);
    assert SumCounts(d2) == d[2].count + SumCounts(d3);
    assert SumCounts(d1) == d[1].count + SumCounts(d2);
    assert SumCounts(d) == d[0].count + SumCounts(d1);
    assert SumPercentages(d5) == d[5].percentage;
    assert SumPercentages(d4) == d[4].percentage + SumPercentages(d5);
    assert SumPercentages(d3) == d[3].percentage + SumPercentages(d4);
    assert SumPercentages(d2) == d[2].percentage + SumPercentages(d3);
    assert SumPercentages(d1) == d[1].percentage + SumPercentages(d2);
    assert SumPercentages(d) == d[0].percentage + SumPercentages(d1);
  }

  /** Every ranked record falls under exactly one letter, so the counts add up to the list's length. */
  lemma DistributionCountsAddUp(r: seq<Ranked>)
    ensures SumCounts(Distribution(r)) == |r|
  {
    var d := Distribution(r);
    SumOverLetters(d);
    CountsCoverAll(r);
  }

  /** Each percentage lies in [0, 100], and all are 0 for an empty list. */
  lemma PercentagesInRange(r: seq<Ranked>)
    ensures forall i :: 0 <= i < |Distribution(r)| ==> 0.0 <= Distribution(r)[i].percentage <= 100.0
    ensures |r| == 0 ==> forall i :: 0 <= i < |Distribution(r)| ==> Distribution(r)[i].percentage == 0.0
  {
    var d := Distribution(r);
    forall i | 0 <= i < |d| ensures 0.0 <= d[i].percentage <= 100.0 {
      var c := CountGrade(r, Letters[i]);
      if |r| > 0 {
        var n := |r| as real;
        assert (c as real) <= n;
        assert (c as real) / n <= 1.0;
      }
    }
  }

  lemma PercentageScales(count: nat, n: nat)
    requires n > 0
    ensures Percentage(count, n) == (count as real) * (100.0 / (n as real))
  {
  }

  lemma SixScaled(c0: real, c1: real, c2: real, c3: real, c4: real, c5: real, n: real, k: real)
    requires c0 + c1 + c2 + c3 + c4 + c5 == n && n * k == 100.0
    ensures c0 * k + c1 * k + c2 * k + c3 * k + c4 * k + c5 * k == 100.0
  {
    assert c0 * k + c1 * k + c2 * k + c3 * k + c4 * k + c5 * k == (c0 + c1 + c2 + c3 + c4 + c5) * k;
  }

  /** Before rounding, the percentages of a non-empty list add up to 100. */
  lemma PercentagesAddUpTo100(r: seq<Ranked>)
    requires |r| > 0
    ensures SumPercentages(Distribution(r)) == 100.0
  {
    DistributionCountsAddUp(r);
    PercentSum(Distribution(r), |r|);
  }

  lemma SixPercentages(c0: nat, c1: nat, c2: nat, c3: nat, c4: nat, c5: nat, n: nat,
                       p0: real, p1: real, p2: real, p3: real, p4: real, p5: real)
    requires n > 0 && c0 + c1 + c2 + c3 + c4 + c5 == n
    requires p0 == Percentage(c0, n) && p1 == Percentage(c1, n) && p2 == Percentage(c2, n)
    requires p3 == Percentage(c3, n) && p4 == Percentage(c4, n) && p5 == Percentage(c5, n)
    ensures p0 + p1 + p2 + p3 + p4 + p5 == 100.0
  {
    var k := 100.0 / (n as real);
    assert (n as real) * k == 100.0;
    PercentageScales(c0, n);
    PercentageScales(c1, n);
    PercentageScales(c2, n);
    PercentageScales(c3, n);
    PercentageScales(c4, n);
    PercentageScales(c5, n);
    SixScaled(c0 as real, c1 as real, c2 as real, c3 as real, c4 as real, c5 as real, n as real, k);
  }

  lemma PercentSum(d: seq<GradeCount>, n: nat)
    requires |d| == 6 && n > 0 && SumCounts(d) == n
    requires forall i :: 0 <= i < 6 ==> d[i].percentage == Percentage(d[i].count, n)
    ensures SumPercentages(d) == 100.0
  {
    SumOverLetters(d);
    SixPercentages(d[0].count, d[1].count, d[2].count, d[3].count, d[4].count, d[5].count, n,
                   d[0].percentage, d[1].percentage, d[2].percentage,
                   d[3].percentage, d[4].percentage, d[5].percentage);
  }
}
